=== FILE: README.md ===
# CoinNews scraper core, modelled in Dafny

The scraper fetches the CryptoSlate Bitcoin listing page, selects the article
links on it, fetches each article, extracts its title and paragraph text, and
keeps one record per article whose body text is non-empty. This project models
the parts of `CryptoSlateScrapping.py` that are logic rather than I/O:

- `Listing` (listing.dfy): the link scan of `extract_links_from_listing`. The
  parsed listing is the ordered sequence of `href` values of the anchors the
  selector matched. `urljoin` is the parameter `resolve`. The imperative scan
  `ExtractLinks` is proved equal to a functional reference `SelectLinks`: the
  distinct resolved URLs in first-seen order, truncated to the cap.
- `Seqs` (seqs.dfy): duplicate freedom, first occurrences and deduplication in
  first-seen order, used by the link scan and the record loop.
- `Article` (article.dfy): `extract_article_text`. A parsed article page is
  the first `h1` text (optional), the paragraph texts of `div.post` (optional)
  and those of `article` (optional). The body is the chosen container's
  paragraphs joined by a blank line. `Split` is the inverse of that join for
  one or more paragraphs that hold no blank line and do not end in a line break.
- `Scraper` (scraper.dfy): the record loop of `main` and `main`'s control flow.
  Fetching and parsing an article page is the parameter `fetch` (None when the
  request failed). `urlparse(...).netloc` is the parameter `host`.
- `Wrappers` (wrappers.dfy): the `Option` type.

Idempotence is not stated as a lemma. It holds because every member is a
function of its inputs: calling an extractor twice on the same input gives the
same output.

The listing's cap is `Listing.MaxArticles` (25) and the start URL is
`Scraper.StartUrl`, as in `CryptoSlateScrapping.py` (lines 9 and 13).

The pause at line 102 of `CryptoSlateScrapping.py` is not taken after every
article fetch: the `continue`s at lines 86 (failed fetch) and 91 (empty body)
skip it. So `BuildRecords` and `Run` pause once per stored record.

## Model

| member | source | states |
|---|---|---|
| Listing.Candidates | CryptoSlateScrapping.py:31-34 | Every candidate URL is `urljoin(base, href)` for some matched anchor with a non-empty href, and every such anchor's resolution is a candidate |
| Listing.EmptyHrefIgnored | CryptoSlateScrapping.py:32-34 | An anchor with an empty href contributes nothing, wherever it stands among the anchors |
| Listing.ExtractLinks | CryptoSlateScrapping.py:27-39 | The scan returns exactly the first `min(cap, d)` distinct resolved URLs in first-seen order. It returns at most `cap` links, with no duplicates, each the resolution of a non-empty href. When fewer than `cap` links come back, every non-empty href's resolution is among them |
| Listing.SelectLinksShape | CryptoSlateScrapping.py:31-38 | The selected links are a prefix of the distinct resolved URLs, of length `min(cap, d)`, where `d` is the number of distinct URLs |
| Listing.ScanStep | CryptoSlateScrapping.py:32-36 | One anchor of the scan appends its resolution exactly when its href is non-empty and the URL has not been collected yet |
| Listing.CapReached | CryptoSlateScrapping.py:37-38 | Stopping as soon as `cap` links are collected gives the same links as scanning every anchor and truncating to `cap` |
| Listing.SelectLinksFacts | CryptoSlateScrapping.py:31-38 | The selected links are bounded by the cap, duplicate-free, and all come from anchors. If fewer than the cap come back, they include every anchor's resolution |
| Listing.LinksInFirstSeenOrder | CryptoSlateScrapping.py:34-36 | The selected links appear in the order in which their URLs first appear among the resolved anchors |
| Listing.NoLinksIffNoHrefs | CryptoSlateScrapping.py:31-39 | With a cap of at least 1, the scan returns no link exactly when every matched anchor has an empty href |
| Seqs.Dedup | CryptoSlateScrapping.py:35-36 | Dedup, the "append if not already in the list" accumulation, gives a duplicate-free list with the same elements as its input |
| Seqs.DedupMonotone | CryptoSlateScrapping.py:31-38 | Scanning further anchors only extends the deduplicated list, so stopping early yields a prefix |
| Seqs.DedupFirstSeenOrder | CryptoSlateScrapping.py:35-36 | The deduplicated list is ordered by each element's first position in the input |
| Article.Join | CryptoSlateScrapping.py:54 | `"\n\n".join` of no paragraphs is empty. For `k >= 1` paragraphs, the length is their total length plus two characters for each of the `k - 1` separators |
| Article.JoinSplitRoundTrip | CryptoSlateScrapping.py:53-54 | Splitting the joined body at blank lines gives back one or more paragraphs when none holds a blank line or ends in a line break (single line breaks of wrapped text are allowed). So `k` paragraphs carry exactly `k - 1` separators |
| Article.JoinEmptyIff | CryptoSlateScrapping.py:54 | The joined body is empty exactly when there are no paragraphs, or one empty paragraph |
| Article.ExtractArticle | CryptoSlateScrapping.py:41-55 | The title is the first `h1` text, or `""` without an `h1`. The body comes from `div.post` whenever it exists, even without paragraphs. It comes from `article` only when there is no `div.post`. It is `""` when neither exists. `Article.ContentRegion` is this choice of container, and `ContentEmptyIff` and `ContentRoundTrip` are stated in terms of it |
| Article.ContentEmptyIff | CryptoSlateScrapping.py:49-54 | The body is empty exactly when there is no container, or the chosen container has no paragraphs or one empty paragraph |
| Article.ContentRoundTrip | CryptoSlateScrapping.py:49-54 | The body gives back the chosen container's paragraphs, in document order, when the chosen container has at least one paragraph and none holds a blank line or ends in a line break |
| Article.WrappedParagraphRoundTrip | CryptoSlateScrapping.py:53-54 | A paragraph whose text keeps a line break from wrapping ("Price\nrose.") still comes back whole from the joined body |
| Article.TwoParagraphExample | CryptoSlateScrapping.py:53-54 | The paragraphs "Price rose." and "Analysts are divided." in `div.post` give the body "Price rose.\n\nAnalysts are divided." |
| Scraper.RecordFor | CryptoSlateScrapping.py:84-99 | A link yields a record exactly when its fetch succeeds and the extracted body is non-empty. The record carries the link, the link's host as source, and the extracted title and body |
| Scraper.Records | CryptoSlateScrapping.py:81-100 | There is at most one record per link. Every record has a non-empty body, its source is its link's host, its link is among the links, and it is the record that its link yields |
| Scraper.BuildRecords | CryptoSlateScrapping.py:81-102 | The loop collects exactly the reference records. It pauses once per stored record, never more often than there are links |
| Scraper.RecordsInOrder | CryptoSlateScrapping.py:82-100 | Records follow the order of the links: record `k` comes from the link at position `idx[k]`, and these positions strictly increase |
| Scraper.RecordsComplete | CryptoSlateScrapping.py:82-100 | Every link that yields a record has that record among the results |
| Scraper.RecordsDistinct | CryptoSlateScrapping.py:82-100 | Distinct links give records with distinct links, so no article is stored twice |
| Scraper.Run | CryptoSlateScrapping.py:68-108 | A run without a listing response stops with no records. It stops with no links exactly when every matched anchor has an empty href. Otherwise it returns the records of the selected links, at most 25 of them. It writes them out exactly when there is at least one, and pauses once per record |

## Left out

- `safe_get` and every HTTP request (lines 18-25): network I/O. An article fetch is the parameter `fetch`, which returns an optional parsed page. The listing response is an optional sequence of hrefs.
- HTML parsing, CSS selector matching and `get_text` whitespace normalisation (lines 28, 31, 42-53): these belong to an external library. Their outputs (the href list, the `h1` text, the paragraph texts) are inputs of the model.
- `urljoin` and `urlparse(...).netloc` (lines 34, 96): reference resolution from RFC 3986, section 5.2, done by the standard library. They are the parameters `resolve` and `host`, both total. So nothing here states that the returned URLs are absolute.
- `save_json` / `save_csv` (lines 57-66): file I/O and library serialisers. `Run` only records whether the records would be written.
- The `fetched_at` field (line 98) reads the wall clock, so `Scraper.Record` has no such field. The length of the pause (line 102) and the console output are side effects only.
- Listing.ExtractLinks: `resolve` always returns a URL, but `urljoin` (line 34) raises `ValueError` on a malformed href such as `//[oops` (an unbalanced IPv6 bracket). Nothing in the scan catches it, so such an href, reached before the cap, ends the scan with an exception; the model has no such outcome.
- Scraper.Run: a listing whose scan reaches a malformed href makes `urljoin` raise `ValueError` at line 34, uncaught by `main` (line 74), so the run ends with an error and writes no files. The model's run always ends in `NoListing`, `NoLinks` or `Completed`.
- Listing.ExtractLinks: requires a cap of at least 1. The source's cap is the constant 25. With a cap of 0, the loop would stop after the first anchor and could return one link.
- The price and chart enrichment variant is not part of this model.

=== FILE: article.dfy ===
/** The article extractor: the title and the body text of one article page.

    The parsed page is given by what the extractor looks at: the text of the
    first level-1 heading, and the paragraph texts of the two candidate body
    containers (the `div.post` element and the first `article` element), each
    absent when the page has no such element. Markup parsing and the
    whitespace normalisation of each text are outside the model. */
module Article {
  import opened Wrappers

  datatype ArticleDoc = ArticleDoc(
    h1: Option<string>,
    post: Option<seq<string>>,
    article: Option<seq<string>>)

  datatype Extracted = Extracted(title: string, content: string)

  /** The blank line between two paragraphs of the body. */
  const Separator: string := "\n\n"

  /** Total number of characters in the paragraphs. */
  function TextLength(ps: seq<string>): (n: nat)
  {
    if |ps| == 0 then 0 else |ps[0]| + TextLength(ps[1..])
  }

  /** The paragraphs joined by a blank line: the length is every paragraph's
      characters plus one two-character separator between each pair. */
  function Join(ps: seq<string>): (r: string)
    ensures |ps| == 0 ==> r == ""
    ensures |ps| >= 1 ==> |r| == TextLength(ps) + |Separator| * (|ps| - 1)
  {
    if |ps| == 0 then ""
    else if |ps| == 1 then ps[0]
    else ps[0] + Separator + Join(ps[1..])
  }

  /** Splitting a text at each blank line, scanning from the left. The inverse
      of `Join` on one or more paragraphs that hold no blank line and do not end
      in a line break (no split can tell no paragraph from one empty paragraph). */
  function Split(s: string): (r: seq<string>)
    ensures |r| >= 1
  {
    if |s| < 2 then [s]
    else if s[..2] == Separator then [""] + Split(s[2..])
    else
      var rest := Split(s[1..]);
      [[s[0]] + rest[0]] + rest[1..]
  }

  /** A paragraph holds no blank line (two line breaks in a row) and does not end
      in a line break; single line breaks inside it, as in wrapped text, are allowed. */
  predicate NoBlankLine(p: string)
  {
    && (forall i :: 0 <= i < |p| - 1 ==> !(p[i] == '\n' && p[i + 1] == '\n'))
    && (|p| == 0 || p[|p| - 1] != '\n')
  }

  /** A text without a blank line is one piece. */
  lemma {:induction false} SplitNoBlankLine(p: string)
    requires NoBlankLine(p)
    ensures Split(p) == [p]
  {
    if |p| >= 2 {
      assert p[..2] != Separator by {
        assert p[..2][0] == p[0] && p[..2][1] == p[1];
      }
      assert NoBlankLine(p[1..]);
      SplitNoBlankLine(p[1..]);
      assert [p[0]] + p[1..] == p;
    }
  }

  /** A paragraph without a blank line, followed by the separator, is split off as the first piece. */
  lemma {:induction false} SplitAfterParagraph(p: string, rest: string)
    requires NoBlankLine(p)
    ensures Split(p + Separator + rest) == [p] + Split(rest)
  {
    var s := p + Separator + rest;
    if |p| == 0 {
      assert s == Separator + rest;
      assert s[..2] == Separator;
      assert s[2..] == rest;
    } else {
      assert s[0] == p[0];
      assert s[..2] != Separator by {
        assert s[..2][0] == p[0];
        if |p| >= 2 {
          assert s[..2][1] == p[1];
        } else {
          assert p[0] != '\n';
        }
      }
      assert NoBlankLine(p[1..]);
      SplitAfterParagraph(p[1..], rest);
      assert s[1..] == p[1..] + Separator + rest;
      assert [p[0]] + p[1..] == p;
    }
  }

  /** Splitting the joined body gives back one or more paragraphs that hold no
      blank line and do not end in a line break, one piece per paragraph, so `k`
      such paragraphs are joined by exactly `k - 1` separators. */
  lemma {:induction false} JoinSplitRoundTrip(ps: seq<string>)
    requires |ps| >= 1
    requires forall i :: 0 <= i < |ps| ==> NoBlankLine(ps[i])
    ensures Split(Join(ps)) == ps
  {
    if |ps| == 1 {
      SplitNoBlankLine(ps[0]);
    } else {
      SplitAfterParagraph(ps[0], Join(ps[1..]));
      JoinSplitRoundTrip(ps[1..]);
      assert ps == [ps[0]] + ps[1..];
    }
  }

  /** The body is empty exactly when there is no paragraph, or a single empty one. */
  lemma JoinEmptyIff(ps: seq<string>)
    ensures Join(ps) == "" <==> |ps| == 0 || (|ps| == 1 && ps[0] == "")
  {
  }

  /** The body container: `div.post` whenever the page has one, even with no
      paragraphs in it; the `article` element only when there is no `div.post`. */
  function ContentRegion(doc: ArticleDoc): (r: Option<seq<string>>)
  {
    if doc.post.Some? then doc.post else doc.article
  }

  /** The title is the first heading's text or empty; the content is the chosen
      container's paragraphs joined by blank lines, and empty without a container. */
  function ExtractArticle(doc: ArticleDoc): (e: Extracted)
    ensures doc.h1.None? ==> e.title == ""
    ensures doc.h1.Some? ==> e.title == doc.h1.value
    ensures doc.post.Some? ==> e.content == Join(doc.post.value)
    ensures doc.post.None? && doc.article.Some? ==> e.content == Join(doc.article.value)
    ensures doc.post.None? && doc.article.None? ==> e.content == ""
  {
    var title := if doc.h1.Some? then doc.h1.value else "";
    var paragraphs := match ContentRegion(doc)
      case Some(ps) => ps
      case None => [];
    Extracted(title, Join(paragraphs))
  }

  /** An article is dropped for empty content exactly when it has no body
      container, a container without paragraphs, or one empty paragraph. */
  lemma ContentEmptyIff(doc: ArticleDoc)
    ensures ExtractArticle(doc).content == "" <==>
      match ContentRegion(doc)
      case None => true
      case Some(ps) => |ps| == 0 || (|ps| == 1 && ps[0] == "")
  {
  }

  /** The body text gives back the chosen container's paragraphs, in document
      order, when none of them holds a blank line or ends in a line break, and
      it has at least one paragraph. */
  lemma ContentRoundTrip(doc: ArticleDoc)
    requires ContentRegion(doc).Some? && |ContentRegion(doc).value| >= 1
    requires forall i :: 0 <= i < |ContentRegion(doc).value| ==> NoBlankLine(ContentRegion(doc).value[i])
    ensures Split(ExtractArticle(doc).content) == ContentRegion(doc).value
  {
    JoinSplitRoundTrip(ContentRegion(doc).value);
  }

  /** A paragraph wrapped across two lines still comes back whole. */
  lemma WrappedParagraphRoundTrip()
    ensures Split(Join(["Price\nrose.", "Analysts are divided."])) == ["Price\nrose.", "Analysts are divided."]
  {
    JoinSplitRoundTrip(["Price\nrose.", "Analysts are divided."]);
  }

  /** Two paragraphs in the post body are joined by one blank line. */
  lemma TwoParagraphExample()
    ensures ExtractArticle(ArticleDoc(None, Some(["Price rose.", "Analysts are divided."]), None))
      == Extracted("", "Price rose.\n\nAnalysts are divided.")
  {
  }
}

=== FILE: listing.dfy ===
/** The listing extractor: from the anchors a listing page's selector matched, the
    absolute article links in first-seen order, without duplicates, capped.

    The page parse and the selector are outside the model: the input is the
    ordered sequence of `href` values of the matched anchors ("" for an empty
    attribute). Reference resolution against the page's URL is the parameter
    `resolve`, standing for the standard library's `urljoin`. */
module Listing {
  import opened Seqs

  /** The scraper's fixed cap on article links per run (`MAX_ARTICLES`). */
  const MaxArticles: nat := 25

  /** `u` is the resolution of some matched anchor whose href is non-empty. */
  ghost predicate FromAnchor(base: string, hrefs: seq<string>, resolve: (string, string) -> string, u: string)
  {
    exists i :: 0 <= i < |hrefs| && hrefs[i] != "" && resolve(base, hrefs[i]) == u
  }

  /** The resolved URL of every anchor with a non-empty href, in anchor order,
      duplicates included. */
  function Candidates(base: string, hrefs: seq<string>, resolve: (string, string) -> string): (r: seq<string>)
    ensures |r| <= |hrefs|
    ensures forall k :: 0 <= k < |r| ==> FromAnchor(base, hrefs, resolve, r[k])
    ensures forall i :: 0 <= i < |hrefs| && hrefs[i] != "" ==> resolve(base, hrefs[i]) in r
  {
    if |hrefs| == 0 then []
    else
      var init := hrefs[..|hrefs| - 1];
      var h := hrefs[|hrefs| - 1];
      assert hrefs == init + [h];
      var c := Candidates(base, init, resolve);
      if h != "" then c + [resolve(base, h)] else c
  }

  /** Resolving two runs of anchors one after the other gives the two runs' candidates in sequence. */
  lemma {:induction false} CandidatesAppend(base: string, a: seq<string>, b: seq<string>, resolve: (string, string) -> string)
    ensures Candidates(base, a + b, resolve) == Candidates(base, a, resolve) + Candidates(base, b, resolve)
    decreases |b|
  {
    if |b| > 0 {
      var b' := b[..|b| - 1];
      assert (a + b)[..|a + b| - 1] == a + b';
      CandidatesAppend(base, a, b', resolve);
    } else {
      assert a + b == a;
    }
  }

  /** An anchor with an empty href contributes nothing, wherever it stands. */
  lemma EmptyHrefIgnored(base: string, a: seq<string>, b: seq<string>, resolve: (string, string) -> string)
    ensures Candidates(base, a + [""] + b, resolve) == Candidates(base, a + b, resolve)
  {
    CandidatesAppend(base, a + [""], b, resolve);
    CandidatesAppend(base, a, [""], resolve);
    CandidatesAppend(base, a, b, resolve);
    assert [""][..0] == [];
  }

  /** The reference result: the distinct candidates in order of first appearance,
      truncated to the cap. */
  function SelectLinks(base: string, hrefs: seq<string>, resolve: (string, string) -> string, cap: nat): (r: seq<string>)
  {
    var d := Dedup(Candidates(base, hrefs, resolve));
    if |d| <= cap then d else d[..cap]
  }

  /** The reference result is the prefix of the distinct candidates of length min(cap, d). */
  lemma SelectLinksShape(base: string, hrefs: seq<string>, resolve: (string, string) -> string, cap: nat)
    ensures SelectLinks(base, hrefs, resolve, cap) <= Dedup(Candidates(base, hrefs, resolve))
    ensures var d := |Dedup(Candidates(base, hrefs, resolve))|;
      |SelectLinks(base, hrefs, resolve, cap)| == if d <= cap then d else cap
  {
  }

  /** The scan of the listing's anchors, as `extract_links_from_listing` does it: resolve
      each non-empty href, append it unless already present, and stop as soon as
      the cap is reached. */
  method ExtractLinks(hrefs: seq<string>, base: string, resolve: (string, string) -> string, cap: nat)
    returns (links: seq<string>)
    requires cap >= 1
    ensures links == SelectLinks(base, hrefs, resolve, cap)
    ensures |links| <= cap
    ensures NoDups(links)
    ensures forall k :: 0 <= k < |links| ==> FromAnchor(base, hrefs, resolve, links[k])
    ensures |links| < cap ==>
      forall i :: 0 <= i < |hrefs| && hrefs[i] != "" ==> resolve(base, hrefs[i]) in links
  {
    links := [];
    var i := 0;
    assert hrefs[..i] == [];
    while i < |hrefs|
      invariant 0 <= i <= |hrefs|
      invariant links == Dedup(Candidates(base, hrefs[..i], resolve))
      invariant |links| < cap
    {
      ScanStep(base, hrefs, i, resolve);
      var href := hrefs[i];
      if href != "" {
        var full := resolve(base, href);
        if full !in links {
          links := links + [full];
        }
      }
      i := i + 1;
      if |links| >= cap {
        CapReached(base, hrefs, i, resolve, cap);
        SelectLinksFacts(base, hrefs, resolve, cap);
        return;
      }
    }
    assert hrefs[..i] == hrefs;
    SelectLinksFacts(base, hrefs, resolve, cap);
  }

  /** One anchor of the scan: the links collected so far grow by the anchor's
      resolution exactly when its href is non-empty and the URL is new. */
  lemma ScanStep(base: string, hrefs: seq<string>, i: nat, resolve: (string, string) -> string)
    requires i < |hrefs|
    ensures var d := Dedup(Candidates(base, hrefs[..i], resolve));
      var u := resolve(base, hrefs[i]);
      Dedup(Candidates(base, hrefs[..i + 1], resolve)) == if hrefs[i] != "" && u !in d then d + [u] else d
  {
    assert hrefs[..i + 1][..i] == hrefs[..i];
    var c := Candidates(base, hrefs[..i], resolve);
    if hrefs[i] != "" {
      var c' := c + [resolve(base, hrefs[i])];
      assert c'[..|c'| - 1] == c;
    }
  }

  /** Everything the scan promises follows from its reference result. */
  lemma SelectLinksFacts(base: string, hrefs: seq<string>, resolve: (string, string) -> string, cap: nat)
    ensures var links := SelectLinks(base, hrefs, resolve, cap);
      && |links| <= cap
      && NoDups(links)
      && (forall k :: 0 <= k < |links| ==> FromAnchor(base, hrefs, resolve, links[k]))
      && (|links| < cap ==> forall i :: 0 <= i < |hrefs| && hrefs[i] != "" ==> resolve(base, hrefs[i]) in links)
  {
  }

  /** Once the scan of the first `n` anchors has collected `cap` links, those are
      the reference result: later anchors cannot change the first `cap` distinct candidates. */
  lemma CapReached(base: string, hrefs: seq<string>, n: nat, resolve: (string, string) -> string, cap: nat)
    requires n <= |hrefs|
    requires |Dedup(Candidates(base, hrefs[..n], resolve))| == cap
    ensures Dedup(Candidates(base, hrefs[..n], resolve)) == SelectLinks(base, hrefs, resolve, cap)
  {
    var pre := Candidates(base, hrefs[..n], resolve);
    var all := Candidates(base, hrefs, resolve);
    SplitAt(hrefs, n);
    CandidatesAppend(base, hrefs[..n], hrefs[n..], resolve);
    assert pre <= all;
    DedupMonotone(pre, all);
    var d := Dedup(all);
    assert Dedup(pre) == d[..cap];
  }

  /** The selected links appear in the order their anchors first produced them. */
  lemma LinksInFirstSeenOrder(base: string, hrefs: seq<string>, resolve: (string, string) -> string, cap: nat, i: nat, j: nat)
    requires i < j < |SelectLinks(base, hrefs, resolve, cap)|
    ensures var c := Candidates(base, hrefs, resolve);
      var links := SelectLinks(base, hrefs, resolve, cap);
      links[i] in c && links[j] in c && FirstIndex(c, links[i]) < FirstIndex(c, links[j])
  {
    var c := Candidates(base, hrefs, resolve);
    DedupFirstSeenOrder(c, i, j);
  }

  /** The scan comes back empty exactly when every matched anchor has an empty href. */
  lemma NoLinksIffNoHrefs(base: string, hrefs: seq<string>, resolve: (string, string) -> string, cap: nat)
    requires cap >= 1
    ensures SelectLinks(base, hrefs, resolve, cap) == [] <==> forall i :: 0 <= i < |hrefs| ==> hrefs[i] == ""
  {
  }
}

=== FILE: scraper.dfy ===
/** The run: fetch the listing, select its article links, fetch each article,
    and keep one record per article whose body text is non-empty.

    Network access is the parameter `fetch` (an article page parsed, or None when
    the request failed); the host part of a URL is the parameter `host`,
    standing for the standard library's URL parser. */
module Scraper {
  import opened Wrappers
  import opened Seqs
  import opened Listing
  import opened Article

  /** The listing page the run starts from; its URL is also the base for resolving links. */
  const StartUrl: string := "https://cryptoslate.com/coins/bitcoin/"

  /** One stored article. */
  datatype Record = Record(title: string, link: string, source: string, content: string)

  /** How a run ends: no listing response, no links on the listing, or the
      records collected and whether they were written out. */
  datatype Outcome = NoListing | NoLinks | Completed(records: seq<Record>, saved: bool)

  /** The record one link yields: none when the fetch failed or the extracted
      body is empty, otherwise the extracted title and body with the link's host. */
  function RecordFor(link: string, fetch: string -> Option<ArticleDoc>, host: string -> string): (r: Option<Record>)
    ensures r.Some? <==> fetch(link).Some? && ExtractArticle(fetch(link).value).content != ""
    ensures r.Some? ==>
      && r.value.link == link
      && r.value.source == host(link)
      && r.value.content != ""
      && r.value.title == ExtractArticle(fetch(link).value).title
      && r.value.content == ExtractArticle(fetch(link).value).content
  {
    match fetch(link)
    case None => None
    case Some(doc) =>
      var e := ExtractArticle(doc);
      if e.content == "" then None
      else Some(Record(e.title, link, host(link), e.content))
  }

  /** The records of a run over `links`: at most one per link, each with
      non-empty content, its source the host of its link, and each the record
      its own link yields. */
  function Records(links: seq<string>, fetch: string -> Option<ArticleDoc>, host: string -> string): (rs: seq<Record>)
    ensures |rs| <= |links|
    ensures forall k :: 0 <= k < |rs| ==>
      && rs[k].content != ""
      && rs[k].source == host(rs[k].link)
      && rs[k].link in links
      && RecordFor(rs[k].link, fetch, host) == Some(rs[k])
  {
    if |links| == 0 then []
    else
      var init := links[..|links| - 1];
      var link := links[|links| - 1];
      assert links == init + [link];
      var rs := Records(init, fetch, host);
      match RecordFor(link, fetch, host)
      case None => rs
      case Some(r) => rs + [r]
  }

  /** The loop of the run over the selected links. A pause follows each stored
      record; a failed fetch or an empty body skips both the record and the pause. */
  method BuildRecords(links: seq<string>, fetch: string -> Option<ArticleDoc>, host: string -> string)
    returns (records: seq<Record>, pauses: nat)
    ensures records == Records(links, fetch, host)
    ensures pauses == |records| && pauses <= |links|
  {
    records := [];
    pauses := 0;
    var i := 0;
    assert links[..i] == [];
    while i < |links|
      invariant 0 <= i <= |links|
      invariant records == Records(links[..i], fetch, host)
      invariant pauses == |records|
    {
      assert links[..i + 1][..i] == links[..i];
      var link := links[i];
      var page := fetch(link);
      i := i + 1;
      if page.None? {
        continue;
      }
      var e := ExtractArticle(page.value);
      if e.content == "" {
        continue;
      }
      records := records + [Record(e.title, link, host(link), e.content)];
      pauses := pauses + 1;
    }
    assert links[..i] == links;
  }

  /** The records follow the order of the links: record `k` comes from the link
      at position `idx[k]`, and the positions strictly increase. */
  lemma {:induction false} RecordsInOrder(links: seq<string>, fetch: string -> Option<ArticleDoc>, host: string -> string)
    returns (idx: seq<nat>)
    ensures var rs := Records(links, fetch, host);
      && |idx| == |rs|
      && (forall k :: 0 <= k < |idx| ==> idx[k] < |links| && links[idx[k]] == rs[k].link)
      && (forall k, m :: 0 <= k < m < |idx| ==> idx[k] < idx[m])
  {
    if |links| == 0 {
      idx := [];
    } else {
      var n := |links| - 1;
      var init := links[..n];
      assert links == init + [links[n]];
      idx := RecordsInOrder(init, fetch, host);
      var r := RecordFor(links[n], fetch, host);
      if r.Some? {
        idx := idx + [n];
      }
    }
  }

  /** Every link that yields a record has it among the run's records. */
  lemma {:induction false} RecordsComplete(links: seq<string>, fetch: string -> Option<ArticleDoc>, host: string -> string, i: nat)
    requires i < |links|
    requires RecordFor(links[i], fetch, host).Some?
    ensures RecordFor(links[i], fetch, host).value in Records(links, fetch, host)
  {
    var n := |links| - 1;
    var init := links[..n];
    assert links == init + [links[n]];
    if i < n {
      assert init[i] == links[i];
      RecordsComplete(init, fetch, host, i);
    }
  }

  /** Distinct links give records with distinct links: no article is stored twice. */
  lemma RecordsDistinct(links: seq<string>, fetch: string -> Option<ArticleDoc>, host: string -> string)
    requires NoDups(links)
    ensures var rs := Records(links, fetch, host);
      forall k, m :: 0 <= k < m < |rs| ==> rs[k].link != rs[m].link
  {
  }

  /** A whole run. It stops early without a listing response or without any link
      on the listing; otherwise it fetches the selected links in order and writes
      the records out only when there is at least one. */
  method Run(listing: Option<seq<string>>, resolve: (string, string) -> string,
             fetch: string -> Option<ArticleDoc>, host: string -> string)
    returns (o: Outcome, pauses: nat)
    ensures o.NoListing? <==> listing.None?
    ensures o.NoLinks? <==> listing.Some? && forall i :: 0 <= i < |listing.value| ==> listing.value[i] == ""
    ensures o.Completed? ==>
      o.records == Records(SelectLinks(StartUrl, listing.value, resolve, MaxArticles), fetch, host)
    ensures o.Completed? ==> |o.records| <= MaxArticles
    ensures o.Completed? ==> (o.saved <==> |o.records| > 0)
    ensures pauses == if o.Completed? then |o.records| else 0
  {
    pauses := 0;
    if listing.None? {
      return NoListing, pauses;
    }
    var links := ExtractLinks(listing.value, StartUrl, resolve, MaxArticles);
    NoLinksIffNoHrefs(StartUrl, listing.value, resolve, MaxArticles);
    if |links| == 0 {
      return NoLinks, pauses;
    }
    var records;
    records, pauses := BuildRecords(links, fetch, host);
    o := Completed(records, |records| > 0);
  }
}

=== FILE: seqs.dfy ===
/** Sequence facts shared by the link scan and the record loop: duplicate freedom,
    first occurrences, and deduplication in first-seen order. */
module Seqs {

  /** No element occurs twice. */
  ghost predicate NoDups<T>(s: seq<T>)
  {
    forall i, j :: 0 <= i < j < |s| ==> s[i] != s[j]
  }

  /** A sequence is its prefix followed by the matching suffix. */
  lemma SplitAt<T>(s: seq<T>, n: nat)
    requires n <= |s|
    ensures s[..n] + s[n..] == s
  {
  }

  /** The position of the first occurrence of `x` in `s`. */
  function FirstIndex<T(==)>(s: seq<T>, x: T): (i: nat)
    requires x in s
    ensures i < |s| && s[i] == x && x !in s[..i]
  {
    if s[0] == x then 0
    else
      assert s == [s[0]] + s[1..];
      var k := FirstIndex(s[1..], x);
      assert s[..k + 1] == [s[0]] + s[1..][..k];
      1 + k
  }

  /** The first occurrence is the only position holding `x` with no earlier `x`. */
  lemma FirstIndexUnique<T>(s: seq<T>, x: T, i: nat)
    requires i < |s| && s[i] == x && x !in s[..i]
    ensures FirstIndex(s, x) == i
  {
  }

  /** The first occurrence of an element of a prefix is the same in the whole sequence. */
  lemma FirstIndexPrefix<T>(s: seq<T>, n: nat, x: T)
    requires n <= |s| && x in s[..n]
    ensures x in s && FirstIndex(s[..n], x) == FirstIndex(s, x)
  {
    var i := FirstIndex(s[..n], x);
    assert s[..n][..i] == s[..i];
    FirstIndexUnique(s, x, i);
  }

  /** The distinct elements of `s`, each kept at its first occurrence, in order.
      Defined by scanning from the left, as a list-building loop would. */
  function Dedup<T(==)>(s: seq<T>): (r: seq<T>)
    ensures NoDups(r)
    ensures forall i :: 0 <= i < |r| ==> r[i] in s
    ensures forall i :: 0 <= i < |s| ==> s[i] in r
    ensures |r| <= |s|
  {
    if |s| == 0 then []
    else
      var init := s[..|s| - 1];
      var last := s[|s| - 1];
      assert s == init + [last];
      var d := Dedup(init);
      if last in d then d else d + [last]
  }

  /** Deduplicating a longer sequence only extends the result. */
  lemma {:induction false} DedupMonotone<T>(a: seq<T>, b: seq<T>)
    requires a <= b
    ensures Dedup(a) <= Dedup(b)
    decreases |b|
  {
    if |a| < |b| {
      var init := b[..|b| - 1];
      assert a <= init;
      DedupMonotone(a, init);
    } else {
      assert a == b;
    }
  }

  /** Dedup keeps elements in order of first appearance in the input. */
  lemma {:induction false} DedupFirstSeenOrder<T>(s: seq<T>, i: nat, j: nat)
    requires i < j < |Dedup(s)|
    ensures Dedup(s)[i] in s && Dedup(s)[j] in s
    ensures FirstIndex(s, Dedup(s)[i]) < FirstIndex(s, Dedup(s)[j])
    decreases |s|
  {
    var d := Dedup(s);
    var n := |s| - 1;
    var init := s[..n];
    var last := s[n];
    assert s == init + [last];
    var d' := Dedup(init);
    assert d[i] in init by {
      assert d[i] in d';
    }
    FirstIndexPrefix(s, n, d[i]);
    if j < |d'| {
      assert d[j] == d'[j] && d[i] == d'[i];
      DedupFirstSeenOrder(init, i, j);
      FirstIndexPrefix(s, n, d[j]);
    } else {
      // d[j] is the last element, seen for the first time at position n
      assert d[j] == last && last !in init;
      FirstIndexUnique(s, last, n);
    }
  }
}

=== FILE: wrappers.dfy ===
/** The optional value used wherever the scraper gets back "something or nothing":
    a fetch that may fail, an element a selector may not find. */
module Wrappers {

  datatype Option<+T> = None | Some(value: T)
}
